=== FILE: README.md ===
# Tracking app core, modelled in Dafny

`tracking_app_windows.py` is a desktop client for a parcel-scanning service. An operator
scans a box id and a waybill number (TTN). The client POSTs the scan to the server, or
keeps it in a local offline queue when it cannot. Later a background pass replays the
queue. This project models the parts of the client that have behaviour of their own apart
from the widgets, the HTTP library and the file system.

- **The offline queue** (`offline_queue.dfy`, module `Offline`).
  - `OfflineQueue` is a class. Its `stored` field is the queue file.
  - `AddRecord` appends one record.
  - `SyncPending` is one pass of the sync worker. It snapshots the queue and skips the pass when the snapshot or the token is empty. It POSTs the records in order and stops at the first transport error. It then rewrites the reloaded queue without every record equal to a synced one.
  - The server is an outcome oracle: one `Ok200 | Other | TransportError` per record.
  - Records that other threads append while the POSTs are in flight are a parameter.
  - The loop itself is the method `PostInOrder`. It is proved against the functions `AttemptCount` and `Synced`, and the rewrite is the function `Without`.
- **Submit routing** (`controller.dfy`, module `Controller`).
  - `Submit` decides whether a scan is POSTed, queued, or both. It also decides the answer and whether a sync pass starts.
  - `TrackingAppController.SubmitRecord` applies that decision to an `OfflineQueue`.
  - `ToInt` is `_to_int`.
- **User API helpers** (`user_api.dfy`, module `UserApi`):
  - `Url` is `_url` and `Headers` is `_headers`.
  - `ExtractMessage` is `_extract_message`.
  - `UpdatePayload` is the payload of `update_user`, with its empty-payload error.
- **Roles** (`roles.dfy`, module `Roles`): `FromValue` is `UserRole.from_value`.
- **Statistics** (`statistics.dfy`, module `Statistics`):
  - `CountByUser` and `Refresh` are the per-user counting of `StatisticsPage._refresh`. The `defaultdict` is an association list in insertion order.
  - `TopEntry` is `_top_entry` and `FormatTop` is `_format_top`.
  - `PeriodSelection.EnsureOrder` is `_ensure_order`.
- **Python semantics the model needs** (`text.dfy`, `json.dfy`, `wrappers.dfy`):
  - `str.strip` over Python's white-space code points.
  - `int()` of a string, with the white space it ignores around the literal (which differs from `str.strip`'s set), signs and `_` digit separators.
  - Decimal rendering of integers.
  - A JSON value type with Python truthiness.
  - `Option` and `Result`.

## Model

| member | source | states |
|---|---|---|
| Offline.OfflineQueue.AddRecord | tracking_app_windows.py:427-431 | The queue becomes the old queue with the record appended at the end; nothing else changes. |
| Offline.OfflineQueue.SyncPending | tracking_app_windows.py:434-465 | With an empty snapshot or empty token: no POST, no rewrite, no callback (`Skipped`). Otherwise the POSTs are the snapshot's prefix up to the first transport error, the synced list is `Synced`, the file is rewritten exactly when something synced, the callback's count `len(synced)` is the number of POSTs answered 200, at most the number of POSTs and that at most the snapshot's length, and the new queue is the reloaded queue (snapshot plus records appended meanwhile) without every record equal to a synced one. |
| Offline.AttemptsFrom | tracking_app_windows.py:443-457 | Defines how many records the loop POSTs from a position on: all, or up to and including the first transport error; at most the records left. Its properties are `AttemptsStopAtError`, `StopsAtTransportError` and `NoTransportErrorAttemptsAll`. |
| Offline.AttemptCount | tracking_app_windows.py:443-457 | The number of POSTs of a whole pass, at most the snapshot's length. |
| Offline.SyncedFrom | tracking_app_windows.py:443-457 | Defines the records the loop adds to `synced` from a position on: one entry per POST answered 200, in order, up to the first transport error; membership by `SyncedFromExactly`, length by `SyncedFromCount`. |
| Offline.Synced | tracking_app_windows.py:443-457 | The `synced` list of a whole pass; membership by `SyncedExactly`, exact length by `SyncedCount`, multiset bound by `SyncedBounded`. |
| Offline.Without | tracking_app_windows.py:460 | Defines `[r for r in queue if r not in synced]`; characterised by `WithoutCounts` and `WithoutConcat`. |
| Offline.PostInOrder | tracking_app_windows.py:443-457 | The loop POSTs exactly `pending[..AttemptCount(outcomes)]`, in order, and collects exactly `Synced(pending, outcomes)`. |
| Offline.AttemptsStopAtError | tracking_app_windows.py:443-457 | A pass attempts nothing only on an empty snapshot, every POST but the last got an answer, and a pass that stops early stopped on a transport error. |
| Offline.StopsAtTransportError | tracking_app_windows.py:456-457 | After a transport error no later record is POSTed. |
| Offline.NoTransportErrorAttemptsAll | tracking_app_windows.py:454-457 | A non-200 status does not stop the loop: without transport errors every record is POSTed. |
| Offline.SyncedExactly | tracking_app_windows.py:454-455 | A record is synced if and only if one of the attempted POSTs of that record was answered with exactly 200. |
| Offline.SyncedFromExactly | tracking_app_windows.py:443-457 | The same characterisation for the rest of a pass from any position. |
| Offline.SyncedFromShorter | tracking_app_windows.py:454-455 | From any position, no more records are synced than POSTed. |
| Offline.AttemptedFromIsPrefix | tracking_app_windows.py:443-457 | The records POSTed from a position on are a prefix of the snapshot from there. |
| Offline.SyncedFromDrawn | tracking_app_windows.py:454-455 | As a multiset, the synced records are contained in the POSTed ones. |
| Offline.SyncedBounded | tracking_app_windows.py:454-465 | `len(synced)`, which the callback receives, is at most the number of POSTs, which is at most the snapshot's length; as a multiset the synced records are among the attempted ones. |
| Offline.AcceptedIn | tracking_app_windows.py:454-455 | The number of POSTs in a range of positions answered with 200, at most the range's length. |
| Offline.SyncedFromCount | tracking_app_windows.py:443-457 | From any position, `synced` grows by exactly one entry per POST answered 200, equal records included. |
| Offline.SyncedCount | tracking_app_windows.py:455-465 | `len(synced)`, which the callback receives, is the number of the pass's POSTs answered with 200. |
| Offline.EqualRecordsCountTwice | tracking_app_windows.py:455 | Two equal records both answered 200 are counted twice, not once. |
| Offline.WithoutCounts | tracking_app_windows.py:460 | After the rewrite a record remains exactly when it was queued and equals no synced record; survivors keep their multiplicity and every copy of a synced record goes. |
| Offline.WithoutConcat | tracking_app_windows.py:460 | The rewrite filters piece by piece, so survivors keep their relative order. |
| Offline.WithoutCons | tracking_app_windows.py:460 | One step of the filter: the head stays exactly when it is not in `synced`. |
| Offline.WithoutNothing | tracking_app_windows.py:458 | Filtering by an empty `synced` would leave the queue unchanged, so skipping the rewrite loses nothing. |
| Offline.WithoutKeepsUnsynced | tracking_app_windows.py:460 | A queue none of whose records was synced survives the rewrite whole. |
| Offline.AppendedSurvive | tracking_app_windows.py:458-463 | Records appended during the POSTs survive the rewrite, after the old survivors, unless equal to a synced record. |
| Offline.AllAcceptedSynced | tracking_app_windows.py:443-457 | When the server accepts every record, the rest of a pass syncs the rest of the snapshot. |
| Offline.AllAcceptedDrains | tracking_app_windows.py:443-463 | When the server accepts every record, everything syncs and the rewrite empties the queue. |
| Offline.PartialFailureIsolated | tracking_app_windows.py:443-463 | Of [a, b, c] answered 200, other, 200, where b equals neither a nor c, a and c sync and only b remains (removal is by value, so a b equal to a or c would go too). |
| Offline.SyncTwiceAllAccepted | tracking_app_windows.py:434-465 | Two passes against a server that accepts everything: the first POSTs and syncs the whole queue, the second finds it empty and is skipped. |
| Controller.AcceptedMessage | tracking_app_windows.py:595-602 | A 200 answer's message is the duplicate warning with the server's note when there is a non-empty note, otherwise "✅ Успішно додано". |
| Controller.HasToken | tracking_app_windows.py:580-581 | `self.state.token or ""` is truthy: a token is present and non-empty; `Submit` POSTs exactly then. |
| Controller.SubmitAsWritten | tracking_app_windows.py:574-608 | As written: without a token the record is queued with no POST; with a token it is POSTed and queued exactly when the answer is not a 200 with a decodable body. |
| Controller.AcceptedYetQueued | tracking_app_windows.py:594-608 | A 200 whose body is not JSON still queues the record and answers "offline". |
| Controller.Submit | tracking_app_windows.py:574-608 | Without a token: queue, no POST, the "log in" message. With one: POST; a 200 answers "ok", does not queue and starts a sync pass; any other status or a transport error queues the record and answers "offline". Queued exactly when the answer is "offline". |
| Controller.SubmitAgreesElsewhere | tracking_app_windows.py:574-608 | `Submit` and the as-written routing agree on every input except a 200 with a non-JSON body. |
| Controller.TrackingAppController.SubmitRecord | tracking_app_windows.py:574-608 | Applies the corrected routing `Submit` (see Findings: a 200 with a body that is not JSON is not queued here, unlike the source). The record is built from the session's user name, box id and TTN; the queue grows by exactly that record when `Submit` says to queue, and is otherwise unchanged; a scan answered "offline" is the last record of the queue. |
| Controller.Trunc | tracking_app_windows.py:785-786 | `int(x)` of a float: the integer nearest `x` on the side of zero. |
| Controller.ToInt | tracking_app_windows.py:782-792 | Ints and bools as they are (True is 1), finite floats truncated, infinite and NaN floats raise, strings through `int()` with failure giving `None`, everything else `None`. |
| Controller.ToIntTruncates | tracking_app_windows.py:785-786 | A finite float converts to an integer within one of it, on the side of zero. |
| Controller.ToIntReadsDecimal | tracking_app_windows.py:788-791 | A decimal string of an access level of at most 4300 digits converts back to that level. |
| Roles.Value | tracking_app_windows.py:133-136 | The role's string value: "admin", "operator", "viewer"; read back by `ValueRoundTrip`. |
| Roles.Level | tracking_app_windows.py:154-160 | The role's access level: admin 1, operator 0, viewer 2; read back by `LevelRoundTrip`. |
| Roles.RoleForLevel | tracking_app_windows.py:172-176 | Level 1 is admin and 0 operator, each if and only if; anything else, or none, is viewer. |
| Roles.FromValue | tracking_app_windows.py:163-176 | A name equal, ignoring case, to a role's value gives that role whatever the level; with no name or no match the level decides. |
| Roles.ValueRoundTrip | tracking_app_windows.py:163-170 | A role's own value reads back as that role. |
| Roles.UpperCaseValueRoundTrip | tracking_app_windows.py:163-170 | A role's value in capitals reads back as that role. |
| Roles.LevelRoundTrip | tracking_app_windows.py:172-176 | With no name, a role's own level reads back as that role. |
| UserApi.Url | tracking_app_windows.py:198-201 | The URL is the API base, a `/`, and the path; a path that already starts with `/` is kept as it is, any other gets one `/` added. |
| UserApi.UrlIdempotent | tracking_app_windows.py:198-201 | Normalising an already normalised path changes nothing. |
| UserApi.Headers | tracking_app_windows.py:204-211 | JSON `Accept` and `Content-Type` always; `Authorization: Bearer <token>` if and only if the token is present and non-empty; no other header. |
| UserApi.HeadersCarryToken | tracking_app_windows.py:204-211 | The bearer token read back from the headers is exactly the token given, when there is one. |
| UserApi.FallbackMessage | tracking_app_windows.py:219 | "Помилка сервера (<status>)"; `FallbackCarriesStatus` reads the status back. |
| Json.Truthy | tracking_app_windows.py:216 | Python truthiness of a JSON value: null, false, 0, 0.0, "", [] and {} are falsy. |
| UserApi.DetailOrMessage | tracking_app_windows.py:216 | `payload.get("detail") or payload.get("message")`; see `DetailWins` and `FalsyDetailYieldsToMessage`. |
| UserApi.ExtractMessage | tracking_app_windows.py:214-219 | The message is never empty: the payload's non-empty `detail or message` string when the payload is an object, otherwise "Помилка сервера (<status>)". |
| UserApi.DetailWins | tracking_app_windows.py:216-218 | A non-empty `detail` string wins over any `message`. |
| UserApi.FalsyDetailYieldsToMessage | tracking_app_windows.py:216 | A falsy `detail` (null, "", 0, empty list...) gives way to `message`. |
| UserApi.FallbackCarriesStatus | tracking_app_windows.py:219 | The generic message contains the status code in a form that `int()` reads back to it (for codes of at most 4300 digits). |
| UserApi.UpdatePayload | tracking_app_windows.py:338-344 | Fails with `ApiException("Немає даних для оновлення", 400)` if and only if neither role nor flag is given; otherwise holds `role` exactly when a role is given and `is_active` exactly when a flag is given, and nothing else. |
| UserApi.UpdatePayloadRoundTrip | tracking_app_windows.py:338-342 | A built payload decodes back to exactly the requested change. |
| Statistics.UnknownIsStripped | tracking_app_windows.py:2354 | Stripping the placeholder name leaves it unchanged. |
| Statistics.BucketName | tracking_app_windows.py:2354 | A record with a missing name, or one that is blank after stripping, is counted under "Невідомий користувач"; any other under its stripped name; never under "". |
| Statistics.BucketNameIdempotent | tracking_app_windows.py:2354 | A bucket name has no white space at either end and is its own bucket. |
| Statistics.Lookup | tracking_app_windows.py:2355 | `counts[name]` of a `defaultdict(int)`: the counter of `name`, 0 when it has none; see `BumpLookup`. |
| Statistics.Bump | tracking_app_windows.py:2355 | `counts[name] += 1`: that counter raised in place, or a new counter of 1 at the end; see `BumpLookup`, `BumpTotal`, `BumpKeys`. |
| Statistics.Tally | tracking_app_windows.py:2351-2355 | The counters after counting the names one by one from an empty dictionary; characterised by `TallyCounts` and `TallyEntries`. |
| Statistics.BumpLookup | tracking_app_windows.py:2355 | `counts[name] += 1` raises that counter by one and leaves the others unchanged. |
| Statistics.BumpTotal | tracking_app_windows.py:2355 | Each increment raises the sum of the counters by one. |
| Statistics.BumpKeys | tracking_app_windows.py:2355 | An increment keeps the keys in insertion order, adding a new name at the end. |
| Statistics.FirstAppearancesDistinct | tracking_app_windows.py:2351-2358 | The keys are distinct and are exactly the names counted. |
| Statistics.OccurrencesPositive | tracking_app_windows.py:2351-2358 | A name has a positive count exactly when it was counted. |
| Statistics.TallyCounts | tracking_app_windows.py:2351-2363 | One counter per distinct name in order of first appearance, each equal to its number of occurrences, adding up to the number of records counted. |
| Statistics.LookupDistinct | tracking_app_windows.py:2351-2358 | With distinct keys, looking up a key finds its own counter. |
| Statistics.TallyEntries | tracking_app_windows.py:2351-2358 | Entry by entry, the i-th counter is the i-th distinct name with its number of occurrences. |
| Statistics.TallyStep | tracking_app_windows.py:2353-2355 | Counting one more record is one increment. |
| Statistics.CountByUser | tracking_app_windows.py:2351-2358 | The loop's counters are the tally of the records' buckets; they add up to the number of records, and each name's counter is its number of occurrences. |
| Statistics.TopEntry | tracking_app_windows.py:2382-2386 | ("—", 0) for no counters; otherwise a counter whose count is maximal, namely the first such in insertion order (what `max` returns). |
| Statistics.TopOfTally | tracking_app_windows.py:2382-2386 | The leader of counted records is a counted user with a positive count that no other user exceeds. |
| Statistics.FormatTop | tracking_app_windows.py:2477-2480 | The cell is "—" if and only if the count is zero or the name is "—". |
| Statistics.FormatTopRoundTrip | tracking_app_windows.py:2477-2480 | A leader's cell "name (count)" reads back, through `int()` for the count, to exactly that name and count (for counts of at most 4300 digits). |
| Statistics.Refresh | tracking_app_windows.py:2351-2366 | Total scans and errors equal the numbers of records; the unique-user figures are the numbers of distinct buckets; each leader (of scans and of errors) is ("—", 0) exactly when there are no such records, and otherwise has the largest count, equal to its number of records. |
| Statistics.SwapOrders | tracking_app_windows.py:2299-2316 | Swapping an inverted period's dates and times orders it, although a missing time then takes the other default. |
| Statistics.Combine | tracking_app_windows.py:2306-2316 | No moment without a date; otherwise the date with the picked time, or the default time of day when none was picked. |
| Statistics.PeriodSelection.Start | tracking_app_windows.py:2306-2310 | `_start_datetime`: the start date at the picked time or at midnight. |
| Statistics.PeriodSelection.End | tracking_app_windows.py:2312-2316 | `_end_datetime`: the end date at the picked time or at 23:59:59. |
| Statistics.PeriodSelection.EnsureOrder | tracking_app_windows.py:2299-2304 | Afterwards a fully set period starts no later than it ends; an inverted one has its dates and its times swapped, any other stays unchanged. |
| Text.LeadingEnd | tracking_app_windows.py:2354 | The end of a leading run of white space: everything before it from the start position is white space, and the character at it is not. |
| Text.TrailingStart | tracking_app_windows.py:2354 | The start of a trailing run of white space, no further back than a bound: everything from it on is white space, and the character before it is not. |
| Text.Trim | tracking_app_windows.py:2354 | Removing the surrounding white space of a given set, never lengthening the string; characterised by `TrimIsSlice` and `TrimKeeps`. |
| Text.TrimIsSlice | tracking_app_windows.py:2354 | Trimming leaves the contiguous slice between the leading and trailing white space, with only white space outside it and none at its ends. |
| Text.TrimKeeps | tracking_app_windows.py:2354 | A string with no white space at either end is its own trim. |
| Text.Strip | tracking_app_windows.py:2354 | `str.strip()`: trimming the exact `str.isspace()` set; characterised by `StripIsTrimmedSlice` and `StripIdempotent`. |
| Text.StripIsTrimmedSlice | tracking_app_windows.py:2354 | `strip()` gives the contiguous slice left after removing white space at both ends, and that slice has none at its ends. |
| Text.StripIdempotent | tracking_app_windows.py:2354 | Stripping twice is stripping once. |
| Text.StripKeeps | tracking_app_windows.py:2354 | A string with no white space at either end is unchanged by `strip()`. |
| Text.Lower | tracking_app_windows.py:165 | Lowering keeps the length. |
| Text.NatToDecimal | tracking_app_windows.py:219 | The decimal form of a natural number is all digits, without leading zeros. |
| Text.IntToDecimal | tracking_app_windows.py:219 | The decimal form of an integer has a `-` exactly when it is negative, followed by digits only. |
| Text.DigitsValueOfDecimal | tracking_app_windows.py:219 | Reading a natural number's digits gives it back. |
| Text.DecimalRoundTrip | tracking_app_windows.py:789 | `int()`'s literal reader gives back an integer from its decimal form, when that has at most 4300 digits. |
| Text.RemoveUnderscores | tracking_app_windows.py:789 | Dropping the separators of a literal leaves only digits, no more characters; `RemoveUnderscoresSplit` and `RemoveUnderscoresOfDigits` pin down which. |
| Text.RemoveUnderscoresSplit | tracking_app_windows.py:789 | A separator between two parts contributes nothing, and the two parts keep their digits in order. |
| Text.PyInt | tracking_app_windows.py:789 | `int()` succeeds only when something is left after removing the white space it ignores (`IntStrip`, the `IsIntSpace` set: `str.isspace()` without the ASCII separators U+001C to U+001F). |
| Text.IntStrip | tracking_app_windows.py:789 | The white space `int()` ignores around its literal, removed, never lengthening the string. |
| Text.IntLiteral | tracking_app_windows.py:789 | Defines `int()` of a stripped literal: optional sign, digit groups with single `_` separators, at most 4300 digits (CPython's default `int_max_str_digits`), else `ValueError` (`None`); read back by `DecimalRoundTrip`, limit shown by `PyIntRefusesLongDigitRuns`. |
| Text.PyIntRoundTrip | tracking_app_windows.py:788-791 | `int()` of an integer's decimal form gives the integer back, when it has at most 4300 digits. |
| Text.PyIntRefusesLongDigitRuns | tracking_app_windows.py:788-791 | A string of more than 4300 digits is refused (`ValueError`, so `_to_int` gives `None`), whatever its value. |
| Text.PyIntReadsSeparatedGroups | tracking_app_windows.py:788-791 | `int("1_000") == 1000`: the digits on both sides of a separator count. |
| Text.PyIntIgnoresSpaces | tracking_app_windows.py:788-791 | A space before and a newline after an integer's decimal form are ignored: `int(" 42\n") == 42`. |
| Text.PyIntRefusesSeparators | tracking_app_windows.py:788-791 | A string starting with U+001C to U+001F is refused (`ValueError`, so `_to_int` gives `None`), although `str.strip()` would remove that character. |
| Text.DigitsAreGroups | tracking_app_windows.py:789 | A non-empty string of digits is a well-formed digit-group literal. |
| Text.RemoveUnderscoresOfDigits | tracking_app_windows.py:789 | A literal without separators is unchanged when they are dropped. |

## Left out

- The Qt user interface is not modelled: widgets, dialogs, pages, palette and navigation.
- The thread pool, the daemon worker thread and `OfflineQueue._lock` are not modelled. A sync pass is one sequential method. Records that other threads append to the queue file while the POSTs are in flight are the parameter `appendedMeanwhile`. Interleavings finer than that are not modelled.
- HTTP is replaced by oracles:
  - `Offline.Outcome` for the pass and `Controller.Delivery` for `submit_record`. Headers, timeouts and the request body are not modelled.
  - `Controller.Body` supplies the string the source computes with `str(payload.get("note", ""))`. `str()` of arbitrary JSON values is not modelled.
- File persistence is not modelled: the JSON files behind `QUEUE_PATH` and `STATE_PATH`, their encoding, and the deletion of a corrupt queue file. The queue file is the `stored` sequence.
- Offline.OfflineQueue.SyncPending requires one outcome per snapshot record. The outcomes after a transport error are never consulted.
- Offline.OfflineQueue.SyncPending does not model the callback itself. The report says whether it runs (`Completed`) and with what count (`len(synced)`).
- The rest of `UserApi` is not modelled: `_request`, login, registration and the user-management requests other than the `update_user` payload.
- `ManagedUser`/`PendingUser` parsing is not modelled, nor is `parse_api_datetime`.
- Date filtering and the per-day timeline of the history and statistics pages are not modelled. They rest on ISO parsing and the local time zone. `Statistics.Refresh` receives the already filtered records' `user_name` entries.
- Statistics.PeriodSelection models dates as day numbers and times of day as microseconds. It does not model `datetime` itself.
- CSV export, the connectivity timer and HEAD probe, and login/logout state writes are not modelled. They are I/O.
- Statistics.BucketName takes a string or nothing. A falsy `user_name` that is not a string (0, False, an empty list or dict) is replaced by the placeholder by `or`, exactly like a missing one, so it is covered by passing nothing. A truthy non-string makes `.strip()` raise `AttributeError`, and that case is not modelled.
- Text.Lower lowers ASCII letters only. For the comparisons with "admin", "operator" and "viewer" this agrees with `str.lower()`. The one non-ASCII character that lowers to an ASCII letter is the Kelvin sign, which becomes "k", a letter none of those words contains.
- Text.PyInt reads ASCII digits only. `int()` also accepts other Unicode decimal digits.
- Text.PyInt follows CPython 3.11 and later, which refuse decimal strings of more than 4300 digits by default. Older interpreters have no such limit. The limit is not adjustable in the model (`sys.set_int_max_str_digits`).
- Text.IntToDecimal renders every integer. CPython 3.11 and later raise `ValueError` from `str()` and f-strings of an int with more than 4300 digits, so for such values the model gives a string where the program raises.
- Statistics.FormatTop renders a count of any size. The f-string at tracking_app_windows.py:2480 raises `ValueError` for a count of more than 4300 digits in CPython 3.11 and later; per-user counts never get near that.
- UserApi.FallbackMessage renders a status of any size. The f-string at tracking_app_windows.py:219 raises `ValueError` for a status of more than 4300 digits in CPython 3.11 and later; HTTP status codes have three digits.
- Controller.ToInt models the failures of `int()` on infinite and NaN floats as `Failure` values. They are exceptions that `_to_int` does not catch.

## Findings

| source | as written | input that shows it | evidently intended | confidence | as-written member | corrected member |
|---|---|---|---|---|---|---|
| tracking_app_windows.py:594-608 | A 200 answer's body is parsed with `response.json()` inside the `try` whose handler catches `requests.RequestException`. Since `requests` 2.27, a body that is not JSON raises `requests.exceptions.JSONDecodeError`, which is a `RequestException`. | A token, and the API's own answer to the POST: status 200 with a non-empty body that is not JSON. | The API stored the scan, so answer "ok" and do not queue it. The program itself treats such an answer as delivered elsewhere: `UserApi._request` (tracking_app_windows.py:236-242) returns `None` as success for a 2xx body that is not JSON, and `sync_pending` (tracking_app_windows.py:454-455) counts any 200 as synced without reading the body. As written, the record is queued and answered "offline", and the next sync pass POSTs it a second time. | medium, not executed | Controller.SubmitAsWritten, Controller.AcceptedYetQueued | Controller.Submit, Controller.TrackingAppController.SubmitRecord |

=== FILE: controller.dfy ===
/** `TrackingAppController`: how `submit_record` routes a scan between the server and the
    offline queue, and `_to_int`. */
module Controller {
  import opened Wrappers
  import opened Json
  import opened Text
  import opened Offline

  /** The two fields of the persisted session (`AppState`) that `submit_record` reads. */
  datatype AppState = AppState(token: Option<string>, userName: string)

  /** The body of a 200 answer to `/add_record`: empty, a JSON object (with `str()` of its
      `note` entry, "" when it has none), some other JSON value, or not JSON at all. */
  datatype Body = EmptyBody | JsonDict(noteText: string) | JsonOther | Undecodable

  /** What the POST of `submit_record` ends in: an answer with a status code, or a
      `requests.RequestException`. The body is read only when the status is 200. */
  datatype Delivery = Answered(status: int, body: Body) | TransportFailure

  /** The dictionary `submit_record` returns. */
  datatype Response = Response(status: string, message: string)

  /** What one call of `submit_record` does: its answer, whether it POSTed, whether it
      appended the record to the offline queue, and whether it started a sync pass. */
  datatype Submission = Submission(response: Response, posted: bool, enqueued: bool, syncStarted: bool)

  const SavedNotLoggedIn: string := "📦 Збережено локально. Увійдіть для синхронізації."
  const SavedOffline: string := "📦 Збережено локально (офлайн)."
  const Added: string := "✅ Успішно додано"
  const DuplicatePrefix: string := "⚠️ Дублікат: "

  predicate HasToken(token: Option<string>): (present: bool)
    ensures present ==> token.Some?
    ensures token == Some("") ==> !present
  {
    token.Some? && token.value != ""
  }

  predicate Accepted(delivery: Delivery) {
    delivery.Answered? && delivery.status == 200
  }

  /** The message of a 200 answer: a duplicate warning exactly when the server attached a
      non-empty note. */
  function AcceptedMessage(body: Body): (m: string)
    ensures m != Added <==> body.JsonDict? && body.noteText != ""
    ensures m != Added ==> m == DuplicatePrefix + body.noteText
  {
    assert Added[0] == '✅' && DuplicatePrefix[0] == '⚠';
    if body.JsonDict? && body.noteText != "" then DuplicatePrefix + body.noteText else Added
  }

  /** `submit_record` as written. With `requests` 2.27 or later, `response.json()` on a 200
      whose body is not JSON raises `requests.exceptions.JSONDecodeError`, a
      `RequestException`; the handler then queues a record the server has already
      accepted. */
  function SubmitAsWritten(token: Option<string>, delivery: Delivery): (s: Submission)
    ensures !HasToken(token) ==> !s.posted && s.enqueued && s.response == Response("offline", SavedNotLoggedIn)
    ensures HasToken(token) ==> s.posted
    ensures s.enqueued <==> s.response.status == "offline"
    ensures s.enqueued <==> !(s.posted && Accepted(delivery) && !delivery.body.Undecodable?)
  {
    if !HasToken(token) then Submission(Response("offline", SavedNotLoggedIn), false, true, false)
    else if Accepted(delivery) && !delivery.body.Undecodable? then
      Submission(Response("ok", AcceptedMessage(delivery.body)), true, false, true)
    else Submission(Response("offline", SavedOffline), true, true, false)
  }

  /** The discrepancy: the server answers 200, and the record is queued all the same, so
      the next sync pass delivers it a second time. */
  lemma AcceptedYetQueued()
    ensures var s := SubmitAsWritten(Some("t"), Answered(200, Undecodable));
      s.posted && s.enqueued && s.response == Response("offline", SavedOffline)
  {
  }

  /** `submit_record` with a 200 counted as delivered whatever its body. Without a token it
      queues the record and does not POST; with one it POSTs, and a 200 answers "ok"
      without queuing and starts a sync pass, while any other status or a transport error
      queues the record once and answers "offline". */
  function Submit(token: Option<string>, delivery: Delivery): (s: Submission)
    ensures !HasToken(token) ==> !s.posted && s.enqueued && s.response == Response("offline", SavedNotLoggedIn)
    ensures HasToken(token) ==> s.posted
    ensures s.enqueued <==> !(s.posted && Accepted(delivery))
    ensures s.enqueued <==> s.response.status == "offline"
    ensures s.syncStarted <==> !s.enqueued
    ensures s.posted && !Accepted(delivery) ==> s.response == Response("offline", SavedOffline)
    ensures s.posted && Accepted(delivery) ==> s.response == Response("ok", AcceptedMessage(delivery.body))
  {
    if !HasToken(token) then Submission(Response("offline", SavedNotLoggedIn), false, true, false)
    else if Accepted(delivery) then Submission(Response("ok", AcceptedMessage(delivery.body)), true, false, true)
    else Submission(Response("offline", SavedOffline), true, true, false)
  }

  /** The correction changes only the case of a 200 with a body that is not JSON. */
  lemma SubmitAgreesElsewhere(token: Option<string>, delivery: Delivery)
    requires !(HasToken(token) && Accepted(delivery) && delivery.body.Undecodable?)
    ensures Submit(token, delivery) == SubmitAsWritten(token, delivery)
  {
  }

  /** `_to_int`'s conversion of a float: `int(x)` truncates toward zero. */
  function Trunc(x: real): (n: int)
    ensures 0.0 <= x ==> n as real <= x < n as real + 1.0
    ensures x < 0.0 ==> n as real - 1.0 < x <= n as real
  {
    if x >= 0.0 then x.Floor else -((-x).Floor)
  }

  /** `TrackingAppController._to_int`: ints (and bools, which Python counts as ints) as they
      are, finite floats truncated toward zero, strings through `int()` with a failed parse
      read as `None`, anything else `None`. `int()` of an infinite float raises
      `OverflowError` and of a NaN `ValueError`, and the function catches neither. */
  function ToInt(v: Json): (r: Result<Option<int>, string>)
    ensures v.JInt? ==> r == Success(Some(v.i))
    ensures v.JBool? ==> r == Success(Some(if v.b then 1 else 0))
    ensures v.JStr? ==> r == Success(PyInt(v.s))
    ensures v.JFloat? ==> (r.Failure? <==> !v.f.Finite?)
    ensures v.JFloat? && v.f.Finite? ==> r.Success? && r.value.Some?
    ensures v.JNull? || v.JList? || v.JObject? ==> r == Success(None)
  {
    match v
    case JInt(i) => Success(Some(i))
    case JBool(b) => Success(Some(if b then 1 else 0))
    case JFloat(f) =>
      (match f
       case Finite(x) => Success(Some(Trunc(x)))
       case Infinity(_) => Failure("OverflowError")
       case NaN => Failure("ValueError"))
    case JStr(s) => Success(PyInt(s))
    case _ => Success(None)
  }

  /** A finite float converts to the integer nearest it on the side of zero. */
  lemma ToIntTruncates(x: real)
    ensures var r := ToInt(JFloat(Finite(x)));
      r.Success? && r.value.Some?
      && (0.0 <= x ==> r.value.value as real <= x < r.value.value as real + 1.0)
      && (x < 0.0 ==> r.value.value as real - 1.0 < x <= r.value.value as real)
  {
  }

  /** An access level sent as a decimal string converts back to that level. */
  lemma ToIntReadsDecimal(i: int)
    requires WithinDigitLimit(i)
    ensures ToInt(JStr(IntToDecimal(i))) == Success(Some(i))
  {
    PyIntRoundTrip(i);
  }

  class TrackingAppController {
    var state: AppState

    constructor (state: AppState)
      ensures this.state == state
    {
      this.state := state;
    }

    /** `submit_record`: build the record from the session's user name, route it, and
        append it to the offline queue when the route says so. A scan is never lost: it
        is either accepted by the server or the last record of the queue. */
    method SubmitRecord(queue: OfflineQueue, boxid: string, ttn: string, delivery: Delivery)
      returns (response: Response, syncStarted: bool)
      modifies queue
      ensures var record := Record(state.userName, boxid, ttn);
        var s := Submit(state.token, delivery);
        && response == s.response && syncStarted == s.syncStarted
        && queue.stored == old(queue.stored) + (if s.enqueued then [record] else [])
      ensures response.status == "ok" || (queue.stored != [] && queue.stored[|queue.stored| - 1] == Record(state.userName, boxid, ttn))
    {
      var record := Record(state.userName, boxid, ttn);
      var s := Submit(state.token, delivery);
      if s.enqueued {
        queue.AddRecord(record);
      }
      response, syncStarted := s.response, s.syncStarted;
    }
  }
}

=== FILE: json.dfy ===
/** The JSON values that `json.loads` and `requests.Response.json` hand to the application,
    and Python's truthiness of them. */
module Json {
  /** A JSON number that Python decodes as `float`; `json.loads` also accepts
      `Infinity`, `-Infinity` and `NaN`. Finite floats are given by their exact value. */
  datatype Float = Finite(value: real) | Infinity(negative: bool) | NaN

  datatype Json =
    | JNull
    | JBool(b: bool)
    | JInt(i: int)
    | JFloat(f: Float)
    | JStr(s: string)
    | JList(items: seq<Json>)
    | JObject(fields: map<string, Json>)

  /** Python's `bool(v)` for a decoded JSON value (`nan` and `inf` are truthy). */
  predicate Truthy(v: Json): (truthy: bool)
    ensures v in {JNull, JBool(false), JInt(0), JFloat(Finite(0.0)), JStr(""), JList([]), JObject(map[])} ==> !truthy
    ensures v.JBool? ==> truthy == v.b
  {
    match v
    case JNull => false
    case JBool(b) => b
    case JInt(i) => i != 0
    case JFloat(f) => !(f.Finite? && f.value == 0.0)
    case JStr(s) => s != ""
    case JList(items) => items != []
    case JObject(fields) => fields != map[]
  }

  /** `d.get(key)` on a decoded JSON object: a missing key reads as `None`. */
  function Get(fields: map<string, Json>, key: string): Json {
    if key in fields then fields[key] else JNull
  }
}

=== FILE: offline_queue.dfy ===
/** `OfflineQueue`: the persisted, ordered list of scan records that could not be delivered,
    and `sync_pending`, one pass that replays it against the server.

    The JSON file behind the queue is the field `stored`; a missing or corrupt file reads
    as the empty list. The server is an oracle: one `Outcome` per record of the pass's
    snapshot, of which the pass consults a prefix. */
module Offline {

  /** One scan: the `{user_name, boxid, ttn}` dictionary. Records compare by value, as
      Python dictionaries do. */
  datatype Record = Record(userName: string, boxid: string, ttn: string)

  /** What one POST of a record to `/add_record` ends in: status 200, any other status,
      or a `requests.RequestException` (timeout, refused connection ...). */
  datatype Outcome = Ok200 | Other | TransportError

  // ---------------------------------------------------------------------------------
  // The POST loop of one pass, as functions of the snapshot and the server's answers.

  /** How many records a pass POSTs from position `i` on: all of them, unless a transport
      error comes first, in which case those up to and including the one whose POST
      raised. */
  function AttemptsFrom(outcomes: seq<Outcome>, i: nat): (n: nat)
    requires i <= |outcomes|
    ensures n <= |outcomes| - i
    decreases |outcomes| - i
  {
    if i == |outcomes| then 0
    else if outcomes[i] == TransportError then 1
    else 1 + AttemptsFrom(outcomes, i + 1)
  }

  function AttemptCount(outcomes: seq<Outcome>): (n: nat)
    ensures n <= |outcomes|
  {
    AttemptsFrom(outcomes, 0)
  }

  /** The records from position `i` on that a pass adds to `synced`: those answered with
      200, in queue order, up to the first transport error. */
  function SyncedFrom(pending: seq<Record>, outcomes: seq<Outcome>, i: nat): (synced: seq<Record>)
    requires |outcomes| == |pending| && i <= |pending|
    ensures |synced| <= |pending| - i
    decreases |pending| - i
  {
    if i == |pending| || outcomes[i] == TransportError then []
    else (if outcomes[i] == Ok200 then [pending[i]] else []) + SyncedFrom(pending, outcomes, i + 1)
  }

  /** The `synced` list of a whole pass. */
  function Synced(pending: seq<Record>, outcomes: seq<Outcome>): (synced: seq<Record>)
    requires |outcomes| == |pending|
    ensures |synced| <= |pending|
  {
    SyncedFrom(pending, outcomes, 0)
  }

  /** The rewrite at the end of a pass: `[r for r in queue if r not in synced]`. */
  function Without(queue: seq<Record>, synced: seq<Record>): (kept: seq<Record>)
    ensures |kept| <= |queue|
  {
    if queue == [] then []
    else (if queue[0] in synced then [] else [queue[0]]) + Without(queue[1..], synced)
  }

  // ---------------------------------------------------------------------------------
  // Properties of a pass.

  /** The pass stops at the first transport error and only there: every record POSTed
      before the last one got an answer, and if the pass stopped early, the last POST
      raised. */
  lemma {:induction false} AttemptsStopAtError(outcomes: seq<Outcome>, i: nat)
    requires i <= |outcomes|
    ensures var n := AttemptsFrom(outcomes, i);
      && (n == 0 <==> i == |outcomes|)
      && (forall k :: i <= k < i + n - 1 ==> outcomes[k] != TransportError)
      && (i + n < |outcomes| ==> outcomes[i + n - 1] == TransportError)
    decreases |outcomes| - i
  {
    if i < |outcomes| && outcomes[i] != TransportError {
      AttemptsStopAtError(outcomes, i + 1);
    }
  }

  /** A record is synced exactly when the server answered its POST with 200 and no
      transport error came before it. */
  lemma {:induction false} SyncedFromExactly(pending: seq<Record>, outcomes: seq<Outcome>, i: nat, r: Record)
    requires |outcomes| == |pending| && i <= |pending|
    ensures r in SyncedFrom(pending, outcomes, i) <==>
      exists k :: i <= k < i + AttemptsFrom(outcomes, i) && outcomes[k] == Ok200 && pending[k] == r
    decreases |pending| - i
  {
    if i < |pending| && outcomes[i] != TransportError {
      SyncedFromExactly(pending, outcomes, i + 1, r);
    }
  }

  lemma SyncedExactly(pending: seq<Record>, outcomes: seq<Outcome>, r: Record)
    requires |outcomes| == |pending|
    ensures r in Synced(pending, outcomes) <==>
      exists k :: 0 <= k < AttemptCount(outcomes) && outcomes[k] == Ok200 && pending[k] == r
  {
    SyncedFromExactly(pending, outcomes, 0, r);
  }

  /** `synced` never holds more records than the pass POSTed ... */
  lemma {:induction false} SyncedFromShorter(pending: seq<Record>, outcomes: seq<Outcome>, i: nat)
    requires |outcomes| == |pending| && i <= |pending|
    ensures |SyncedFrom(pending, outcomes, i)| <= AttemptsFrom(outcomes, i)
    decreases |pending| - i
  {
    if i < |pending| && outcomes[i] != TransportError {
      SyncedFromShorter(pending, outcomes, i + 1);
    }
  }

  /** The records a pass POSTs from position `i` on, built the way `SyncedFrom` is. */
  ghost function AttemptedFrom(pending: seq<Record>, outcomes: seq<Outcome>, i: nat): seq<Record>
    requires |outcomes| == |pending| && i <= |pending|
    decreases |pending| - i
  {
    if i == |pending| then []
    else if outcomes[i] == TransportError then [pending[i]]
    else [pending[i]] + AttemptedFrom(pending, outcomes, i + 1)
  }

  lemma {:induction false} AttemptedFromIsPrefix(pending: seq<Record>, outcomes: seq<Outcome>, i: nat)
    requires |outcomes| == |pending| && i <= |pending|
    ensures AttemptedFrom(pending, outcomes, i) == pending[i..][..AttemptsFrom(outcomes, i)]
    decreases |pending| - i
  {
    if i < |pending| && outcomes[i] != TransportError {
      AttemptedFromIsPrefix(pending, outcomes, i + 1);
      var n := AttemptsFrom(outcomes, i + 1);
      assert pending[i..][..n + 1] == [pending[i]] + pending[i + 1..][..n];
    }
  }

  /** ... and is drawn from the attempted records, each POST contributing at most once. */
  lemma {:induction false} SyncedFromDrawn(pending: seq<Record>, outcomes: seq<Outcome>, i: nat)
    requires |outcomes| == |pending| && i <= |pending|
    ensures multiset(SyncedFrom(pending, outcomes, i)) <= multiset(AttemptedFrom(pending, outcomes, i))
    decreases |pending| - i
  {
    if i < |pending| && outcomes[i] != TransportError {
      var rest := SyncedFrom(pending, outcomes, i + 1);
      var head := if outcomes[i] == Ok200 then [pending[i]] else [];
      SyncedFromDrawn(pending, outcomes, i + 1);
      assert SyncedFrom(pending, outcomes, i) == head + rest;
      assert AttemptedFrom(pending, outcomes, i) == [pending[i]] + AttemptedFrom(pending, outcomes, i + 1);
      ConsBound(pending[i], head, rest, AttemptedFrom(pending, outcomes, i + 1));
    }
  }

  /** One step of the bound above: prepending at most the attempted record itself. */
  lemma ConsBound<T>(x: T, head: seq<T>, rest: seq<T>, tail: seq<T>)
    requires head == [] || head == [x]
    requires multiset(rest) <= multiset(tail)
    ensures multiset(head + rest) <= multiset([x] + tail)
  {
    assert multiset(head + rest) == multiset(head) + multiset(rest);
    assert multiset([x] + tail) == multiset([x]) + multiset(tail);
  }

  /** So the count the callback receives never exceeds the number of POSTs, nor the
      snapshot's length, and every synced record was attempted. */
  lemma SyncedBounded(pending: seq<Record>, outcomes: seq<Outcome>)
    requires |outcomes| == |pending|
    ensures |Synced(pending, outcomes)| <= AttemptCount(outcomes) <= |pending|
    ensures multiset(Synced(pending, outcomes)) <= multiset(pending[..AttemptCount(outcomes)])
  {
    SyncedFromShorter(pending, outcomes, 0);
    SyncedFromDrawn(pending, outcomes, 0);
    AttemptedFromIsPrefix(pending, outcomes, 0);
    assert pending[0..] == pending;
  }

  /** How many of the POSTs at positions `i` to `j - 1` were answered with 200. */
  function AcceptedIn(outcomes: seq<Outcome>, i: nat, j: nat): (n: nat)
    requires i <= j <= |outcomes|
    ensures n <= j - i
    decreases j - i
  {
    if i == j then 0 else (if outcomes[i] == Ok200 then 1 else 0) + AcceptedIn(outcomes, i + 1, j)
  }

  /** Every POST answered with 200 adds one entry to `synced`, equal records included, so
      `len(synced)` is the number of such POSTs. */
  lemma {:induction false} SyncedFromCount(pending: seq<Record>, outcomes: seq<Outcome>, i: nat)
    requires |outcomes| == |pending| && i <= |pending|
    ensures |SyncedFrom(pending, outcomes, i)| == AcceptedIn(outcomes, i, i + AttemptsFrom(outcomes, i))
    decreases |pending| - i
  {
    if i < |pending| {
      if outcomes[i] == TransportError {
        assert AcceptedIn(outcomes, i + 1, i + 1) == 0;
      } else {
        SyncedFromCount(pending, outcomes, i + 1);
      }
    }
  }

  /** The count the callback receives is the number of POSTs the server answered with 200. */
  lemma SyncedCount(pending: seq<Record>, outcomes: seq<Outcome>)
    requires |outcomes| == |pending|
    ensures |Synced(pending, outcomes)| == AcceptedIn(outcomes, 0, AttemptCount(outcomes))
  {
    SyncedFromCount(pending, outcomes, 0);
  }

  /** Two equal records both answered with 200 count twice. */
  lemma EqualRecordsCountTwice(r: Record)
    ensures |Synced([r, r], [Ok200, Ok200])| == 2
  {
    SyncedCount([r, r], [Ok200, Ok200]);
    assert AttemptCount([Ok200, Ok200]) == 2;
  }

  /** After a transport error nothing more is POSTed. */
  lemma {:induction false} StopsAtTransportError(outcomes: seq<Outcome>, i: nat, k: nat)
    requires i <= k < |outcomes| && outcomes[k] == TransportError
    ensures AttemptsFrom(outcomes, i) <= k - i + 1
    decreases k - i
  {
    if i < k && outcomes[i] != TransportError {
      StopsAtTransportError(outcomes, i + 1, k);
    }
  }

  /** A non-200 status does not stop the loop: without transport errors every record is
      POSTed. */
  lemma {:induction false} NoTransportErrorAttemptsAll(outcomes: seq<Outcome>, i: nat)
    requires i <= |outcomes|
    requires forall k :: i <= k < |outcomes| ==> outcomes[k] != TransportError
    ensures AttemptsFrom(outcomes, i) == |outcomes| - i
    decreases |outcomes| - i
  {
    if i < |outcomes| {
      NoTransportErrorAttemptsAll(outcomes, i + 1);
    }
  }

  /** A record survives the rewrite exactly when it is in the reloaded queue and equal to
      no synced record; the survivors keep their multiplicity, every copy of a synced
      record goes. */
  lemma WithoutCounts(queue: seq<Record>, synced: seq<Record>, r: Record)
    ensures multiset(Without(queue, synced))[r] == if r in synced then 0 else multiset(queue)[r]
    ensures r in Without(queue, synced) <==> r in queue && r !in synced
  {
    WithoutMultiplicity(queue, synced, r);
  }

  lemma {:induction false} WithoutMultiplicity(queue: seq<Record>, synced: seq<Record>, r: Record)
    ensures multiset(Without(queue, synced))[r] == if r in synced then 0 else multiset(queue)[r]
  {
    if queue != [] {
      var head := if queue[0] in synced then [] else [queue[0]];
      var rest := Without(queue[1..], synced);
      WithoutMultiplicity(queue[1..], synced, r);
      assert Without(queue, synced) == head + rest;
      assert multiset(Without(queue, synced)) == multiset(head) + multiset(rest);
      assert queue == [queue[0]] + queue[1..];
      assert multiset(queue) == multiset([queue[0]]) + multiset(queue[1..]);
    }
  }

  /** The rewrite keeps the relative order of the survivors: it works piece by piece. */
  lemma {:induction false} WithoutConcat(a: seq<Record>, b: seq<Record>, synced: seq<Record>)
    ensures Without(a + b, synced) == Without(a, synced) + Without(b, synced)
  {
    if a == [] {
      assert a + b == b;
    } else {
      var head := if a[0] in synced then [] else [a[0]];
      var left, right := Without(a[1..], synced), Without(b, synced);
      WithoutConcat(a[1..], b, synced);
      assert a + b == [a[0]] + (a[1..] + b);
      WithoutCons(a[0], a[1..] + b, synced);
      assert Without(a + b, synced) == head + (left + right);
      assert Without(a, synced) == head + left;
      assert head + (left + right) == (head + left) + right;
    }
  }

  lemma WithoutCons(x: Record, queue: seq<Record>, synced: seq<Record>)
    ensures Without([x] + queue, synced) == (if x in synced then [] else [x]) + Without(queue, synced)
  {
    assert ([x] + queue)[1..] == queue;
  }

  /** With nothing synced the rewrite would change nothing (the source skips it). */
  lemma {:induction false} WithoutNothing(queue: seq<Record>)
    ensures Without(queue, []) == queue
  {
    if queue != [] {
      WithoutNothing(queue[1..]);
    }
  }

  /** Records appended while the POSTs were in flight survive the rewrite, after the old
      survivors, unless they equal a synced record. */
  lemma AppendedSurvive(queue: seq<Record>, appended: seq<Record>, synced: seq<Record>)
    requires forall k :: 0 <= k < |appended| ==> appended[k] !in synced
    ensures Without(queue + appended, synced) == Without(queue, synced) + appended
  {
    WithoutConcat(queue, appended, synced);
    WithoutKeepsUnsynced(appended, synced);
  }

  lemma {:induction false} WithoutKeepsUnsynced(queue: seq<Record>, synced: seq<Record>)
    requires forall k :: 0 <= k < |queue| ==> queue[k] !in synced
    ensures Without(queue, synced) == queue
  {
    if queue != [] {
      WithoutKeepsUnsynced(queue[1..], synced);
    }
  }

  /** When the server accepts every record, the pass syncs the whole snapshot. */
  lemma {:induction false} AllAcceptedSynced(pending: seq<Record>, outcomes: seq<Outcome>, i: nat)
    requires |outcomes| == |pending| && i <= |pending|
    requires forall k :: 0 <= k < |outcomes| ==> outcomes[k] == Ok200
    ensures SyncedFrom(pending, outcomes, i) == pending[i..]
    decreases |pending| - i
  {
    if i < |pending| {
      AllAcceptedSynced(pending, outcomes, i + 1);
      assert pending[i..] == [pending[i]] + pending[i + 1..];
    }
  }

  /** ... and the rewrite empties the queue. */
  lemma AllAcceptedDrains(pending: seq<Record>, outcomes: seq<Outcome>)
    requires |outcomes| == |pending|
    requires forall k :: 0 <= k < |outcomes| ==> outcomes[k] == Ok200
    ensures Synced(pending, outcomes) == pending
    ensures Without(pending, Synced(pending, outcomes)) == []
  {
    AllAcceptedSynced(pending, outcomes, 0);
    var left := Without(pending, pending);
    if left != [] {
      WithoutCounts(pending, pending, left[0]);
    }
  }

  /** One rejected record does not hold back the others: of `[a, b, c]` with only `b`
      refused, `b` alone stays queued. */
  lemma PartialFailureIsolated(a: Record, b: Record, c: Record)
    requires b != a && b != c
    ensures Synced([a, b, c], [Ok200, Other, Ok200]) == [a, c]
    ensures Without([a, b, c], [a, c]) == [b]
  {
    var pending, outcomes := [a, b, c], [Ok200, Other, Ok200];
    assert SyncedFrom(pending, outcomes, 2) == [c] + [];
    assert SyncedFrom(pending, outcomes, 1) == [] + [c];
    assert SyncedFrom(pending, outcomes, 0) == [a] + [c];
    assert [a, b, c][1..] == [b, c];
    assert [b, c][1..] == [c];
    assert Without([c], [a, c]) == [];
    assert Without([b, c], [a, c]) == [b];
  }

  // ---------------------------------------------------------------------------------
  // The pass itself.

  /** The loop of `sync_pending`'s worker: POST each record in order, remember those
      answered with 200, stop at the first transport error. `attempted` is the log of
      POSTs made. */
  method PostInOrder(pending: seq<Record>, outcomes: seq<Outcome>)
    returns (attempted: seq<Record>, synced: seq<Record>)
    requires |outcomes| == |pending|
    ensures attempted == pending[..AttemptCount(outcomes)]
    ensures synced == Synced(pending, outcomes)
  {
    attempted, synced := [], [];
    var i := 0;
    while i < |pending|
      invariant 0 <= i <= |pending|
      invariant attempted == pending[..i]
      invariant AttemptCount(outcomes) == i + AttemptsFrom(outcomes, i)
      invariant synced + SyncedFrom(pending, outcomes, i) == Synced(pending, outcomes)
    {
      attempted := attempted + [pending[i]];
      assert attempted == pending[..i + 1];
      if outcomes[i] == TransportError {
        assert synced + [] == synced;
        break;
      }
      ghost var rest := SyncedFrom(pending, outcomes, i + 1);
      if outcomes[i] == Ok200 {
        assert synced + ([pending[i]] + rest) == (synced + [pending[i]]) + rest;
        synced := synced + [pending[i]];
      } else {
        assert [] + rest == rest;
      }
      i := i + 1;
    }
  }

  /** What a pass reports: nothing when it returned early (and the callback is not
      called), otherwise the POSTs it made, the records synced (whose number the callback
      receives) and whether the queue file was rewritten. */
  datatype SyncReport =
    | Skipped
    | Completed(attempted: seq<Record>, synced: seq<Record>, rewritten: bool)

  class OfflineQueue {
    /** The contents of the queue file. */
    var stored: seq<Record>

    constructor (persisted: seq<Record>)
      ensures stored == persisted
    {
      stored := persisted;
    }

    /** `add_record`: append one record to the file. */
    method AddRecord(r: Record)
      modifies this
      ensures stored == old(stored) + [r]
    {
      stored := stored + [r];
    }

    /** `sync_pending`: one pass of the worker thread. It snapshots the queue; with an
        empty snapshot or an empty token it stops there. Otherwise it POSTs in order,
        `appendedMeanwhile` being what other threads' `add_record` calls append to the
        file while the POSTs are in flight; then, if anything synced, it reloads the file
        and rewrites it without every record equal to a synced one. */
    method SyncPending(token: string, outcomes: seq<Outcome>, appendedMeanwhile: seq<Record>)
      returns (report: SyncReport)
      requires |outcomes| == |stored|
      modifies this
      ensures old(stored) == [] || token == "" ==> report == Skipped && stored == old(stored)
      ensures old(stored) != [] && token != "" ==>
        && report.Completed?
        && report.attempted == old(stored)[..AttemptCount(outcomes)]
        && report.synced == Synced(old(stored), outcomes)
        && report.rewritten == (report.synced != [])
        && |report.synced| == AcceptedIn(outcomes, 0, AttemptCount(outcomes))
        && |report.synced| <= |report.attempted| <= |old(stored)|
        && stored == if report.rewritten then Without(old(stored) + appendedMeanwhile, report.synced)
                     else old(stored) + appendedMeanwhile
    {
      var pending := stored;
      if pending == [] || token == "" {
        return Skipped;
      }
      var attempted, synced := PostInOrder(pending, outcomes);
      SyncedBounded(pending, outcomes);
      SyncedCount(pending, outcomes);
      stored := stored + appendedMeanwhile;
      if synced != [] {
        stored := Without(stored, synced);
      }
      report := Completed(attempted, synced, synced != []);
    }
  }

  /** Two passes in a row against a server that accepts everything: the second finds the
      queue empty and makes no request at all. */
  method SyncTwiceAllAccepted(persisted: seq<Record>, token: string)
    returns (first: SyncReport, second: SyncReport)
    requires token != ""
    ensures first.Completed? <==> persisted != []
    ensures first.Completed? ==> first.attempted == persisted && first.synced == persisted
    ensures second == Skipped
  {
    var q := new OfflineQueue(persisted);
    var accepted := seq(|persisted|, _ => Ok200);
    AllAcceptedDrains(persisted, accepted);
    NoTransportErrorAttemptsAll(accepted, 0);
    first := q.SyncPending(token, accepted, []);
    assert persisted + [] == persisted;
    second := q.SyncPending(token, [], []);
  }
}

=== FILE: roles.dfy ===
/** `UserRole`: the three access roles, their wire names and numeric access levels. */
module Roles {
  import opened Wrappers
  import opened Text

  datatype UserRole = Admin | Operator | Viewer

  /** The enum's string value, sent to and received from the server. */
  function Value(role: UserRole): (value: string)
    ensures value != [] && forall c :: c in value ==> 'a' <= c <= 'z'
  {
    match role
    case Admin => "admin"
    case Operator => "operator"
    case Viewer => "viewer"
  }

  /** The `level` property: the server's numeric access level of a role. */
  function Level(role: UserRole): (level: int)
    ensures 0 <= level <= 2
  {
    match role
    case Admin => 1
    case Operator => 0
    case Viewer => 2
  }

  /** The fallback of `from_value` when no role name matches: access level 1 is an
      administrator, 0 an operator, anything else (or nothing) a viewer. */
  function RoleForLevel(accessLevel: Option<int>): (role: UserRole)
    ensures role == Admin <==> accessLevel == Some(1)
    ensures role == Operator <==> accessLevel == Some(0)
  {
    if accessLevel == Some(1) then Admin
    else if accessLevel == Some(0) then Operator
    else Viewer
  }

  /** `UserRole.from_value`: a role name, compared without regard to case, decides first;
      otherwise the access level decides. */
  function FromValue(value: Option<string>, accessLevel: Option<int>): (role: UserRole)
    ensures forall named: UserRole :: value.Some? && Lower(value.value) == Value(named) ==> role == named
    ensures (value.None? || (forall named: UserRole :: Lower(value.value) != Value(named)))
            ==> role == RoleForLevel(accessLevel)
  {
    assert Value(Admin) == "admin" && Value(Operator) == "operator" && Value(Viewer) == "viewer";
    if value.Some? && value.value != "" && Lower(value.value) == "admin" then Admin
    else if value.Some? && value.value != "" && Lower(value.value) == "operator" then Operator
    else if value.Some? && value.value != "" && Lower(value.value) == "viewer" then Viewer
    else RoleForLevel(accessLevel)
  }

  /** A role's own name reads back as that role, whatever access level accompanies it. */
  lemma ValueRoundTrip(role: UserRole, accessLevel: Option<int>)
    ensures FromValue(Some(Value(role)), accessLevel) == role
  {
  }

  /** A role's name in capitals reads back as that role too. */
  lemma UpperCaseValueRoundTrip(role: UserRole, accessLevel: Option<int>)
    ensures FromValue(Some(UpperAscii(Value(role))), accessLevel) == role
  {
    var v := Value(role);
    assert Lower(UpperAscii(v)) == v;
  }

  function UpperAscii(s: string): (r: string)
    ensures |r| == |s|
  {
    seq(|s|, i requires 0 <= i < |s| => if 'a' <= s[i] <= 'z' then (s[i] as int - 32) as char else s[i])
  }

  /** Without a name, a role's own access level reads back as that role. */
  lemma LevelRoundTrip(role: UserRole)
    ensures FromValue(None, Some(Level(role))) == role
  {
  }
}

=== FILE: statistics.dfy ===
/** The aggregation of `StatisticsPage`: scans and errors counted per user, the leader of a
    count, its table cell, and keeping the selected period in order. Records arrive already
    filtered by period; only their `user_name` entries matter here. */
module Statistics {
  import opened Wrappers
  import opened Text

  const Unknown: string := "Невідомий користувач"
  const Dash: string := "—"

  /** Stripping the placeholder name leaves it as it is. */
  lemma UnknownIsStripped()
    ensures Strip(Unknown) == Unknown
  {
    StripKeeps(Unknown);
  }

  /** The bucket a record is counted under:
      `(user_name or "Невідомий користувач").strip() or "Невідомий користувач"`.
      A missing or empty name goes straight to the placeholder, which stripping leaves
      as it is (`UnknownIsStripped`). */
  function BucketName(userName: Option<string>): (name: string)
    ensures name != []
    ensures userName.Some? && Strip(userName.value) != [] ==> name == Strip(userName.value)
    ensures userName.None? || Strip(userName.value) == [] ==> name == Unknown
  {
    if userName.Some? && userName.value != "" then
      var stripped := Strip(userName.value);
      if stripped != "" then stripped else Unknown
    else Unknown
  }

  /** A bucket name has no white space at either end, so it is its own bucket. */
  lemma BucketNameIdempotent(userName: Option<string>)
    ensures var name := BucketName(userName);
      !IsSpace(name[0]) && !IsSpace(name[|name| - 1]) && BucketName(Some(name)) == name
  {
    if userName.None? || userName.value == "" || Strip(userName.value) == "" {
      UnknownIsStripped();
      assert Unknown[0] == 'Н' && Unknown[|Unknown| - 1] == 'ч';
    } else {
      var stripped := Strip(userName.value);
      StripIsTrimmedSlice(userName.value);
      StripKeeps(stripped);
      assert BucketName(Some(stripped)) == stripped;
    }
  }

  function BucketNames(userNames: seq<Option<string>>): seq<string> {
    seq(|userNames|, i requires 0 <= i < |userNames| => BucketName(userNames[i]))
  }

  // ---------------------------------------------------------------------------------
  // A `defaultdict(int)` of counters: an association list in insertion order.

  type Counts = seq<(string, nat)>

  /** `counts[name]`: the counter of `name`, 0 when it has none yet. */
  function Lookup(counts: Counts, name: string): (n: nat)
    ensures n > 0 ==> exists i :: 0 <= i < |counts| && counts[i].0 == name
  {
    if counts == [] then 0
    else if counts[0].0 == name then counts[0].1
    else Lookup(counts[1..], name)
  }

  /** `counts[name] += 1`: the counter of `name` incremented in place, or a new counter of
      1 added at the end. */
  function Bump(counts: Counts, name: string): (bumped: Counts)
    ensures |counts| <= |bumped| <= |counts| + 1
  {
    if counts == [] then [(name, 1)]
    else if counts[0].0 == name then [(name, counts[0].1 + 1)] + counts[1..]
    else [counts[0]] + Bump(counts[1..], name)
  }

  function KeySeq(counts: Counts): (keys: seq<string>)
    ensures |keys| == |counts|
    ensures forall i :: 0 <= i < |counts| ==> keys[i] == counts[i].0
  {
    seq(|counts|, i requires 0 <= i < |counts| => counts[i].0)
  }

  /** `sum(counts.values())`. */
  function Total(counts: Counts): nat {
    if counts == [] then 0 else counts[0].1 + Total(counts[1..])
  }

  predicate Distinct(s: seq<string>) {
    forall i, j :: 0 <= i < j < |s| ==> s[i] != s[j]
  }

  /** The counters after counting `names` one after the other from an empty dictionary. */
  function Tally(names: seq<string>): (counts: Counts)
    ensures |counts| <= |names|
  {
    if names == [] then [] else Bump(Tally(names[..|names| - 1]), names[|names| - 1])
  }

  /** How often `name` occurs in `names`. */
  function Occurrences(names: seq<string>, name: string): nat {
    if names == [] then 0
    else Occurrences(names[..|names| - 1], name) + (if names[|names| - 1] == name then 1 else 0)
  }

  /** The distinct names of `names`, in the order of their first appearance. */
  function FirstAppearances(names: seq<string>): seq<string> {
    if names == [] then []
    else
      var earlier := FirstAppearances(names[..|names| - 1]);
      if names[|names| - 1] in earlier then earlier else earlier + [names[|names| - 1]]
  }

  lemma {:induction false} BumpLookup(counts: Counts, name: string, other: string)
    ensures Lookup(Bump(counts, name), other) == Lookup(counts, other) + (if name == other then 1 else 0)
  {
    if counts != [] && counts[0].0 != name {
      BumpLookup(counts[1..], name, other);
    }
  }

  lemma {:induction false} BumpTotal(counts: Counts, name: string)
    ensures Total(Bump(counts, name)) == Total(counts) + 1
  {
    if counts != [] && counts[0].0 != name {
      BumpTotal(counts[1..], name);
    }
  }

  lemma {:induction false} BumpKeys(counts: Counts, name: string)
    ensures KeySeq(Bump(counts, name)) == if name in KeySeq(counts) then KeySeq(counts) else KeySeq(counts) + [name]
  {
    if counts != [] {
      var rest := counts[1..];
      KeySeqCons(counts[0], rest);
      assert counts == [counts[0]] + rest;
      if counts[0].0 != name {
        BumpKeys(rest, name);
        KeySeqCons(counts[0], Bump(rest, name));
        assert name in KeySeq(counts) <==> name in KeySeq(rest);
      } else {
        KeySeqCons((name, counts[0].1 + 1), rest);
      }
    }
  }

  lemma KeySeqCons(entry: (string, nat), rest: Counts)
    ensures KeySeq([entry] + rest) == [entry.0] + KeySeq(rest)
  {
  }

  lemma {:induction false} FirstAppearancesDistinct(names: seq<string>)
    ensures Distinct(FirstAppearances(names))
    ensures forall x :: x in FirstAppearances(names) <==> x in names
  {
    if names != [] {
      var init := names[..|names| - 1];
      FirstAppearancesDistinct(init);
      assert names == init + [names[|names| - 1]];
    }
  }

  lemma {:induction false} OccurrencesPositive(names: seq<string>, name: string)
    ensures Occurrences(names, name) > 0 <==> name in names
  {
    if names != [] {
      var init := names[..|names| - 1];
      OccurrencesPositive(init, name);
      assert names == init + [names[|names| - 1]];
    }
  }

  /** Counting `names` gives one counter per distinct name, in order of first appearance,
      each equal to the number of occurrences of its name, and the counters add up to the
      number of names counted. */
  lemma {:induction false} TallyCounts(names: seq<string>)
    ensures KeySeq(Tally(names)) == FirstAppearances(names)
    ensures forall name :: Lookup(Tally(names), name) == Occurrences(names, name)
    ensures Total(Tally(names)) == |names|
  {
    if names != [] {
      var init := names[..|names| - 1];
      var last := names[|names| - 1];
      TallyCounts(init);
      BumpKeys(Tally(init), last);
      BumpTotal(Tally(init), last);
      forall name ensures Lookup(Tally(names), name) == Occurrences(names, name) {
        BumpLookup(Tally(init), last, name);
      }
    }
  }

  lemma {:induction false} LookupDistinct(counts: Counts, i: nat)
    requires i < |counts| && Distinct(KeySeq(counts))
    ensures Lookup(counts, counts[i].0) == counts[i].1
  {
    if i > 0 {
      assert KeySeq(counts)[0] != KeySeq(counts)[i];
      assert KeySeq(counts[1..]) == KeySeq(counts)[1..];
      LookupDistinct(counts[1..], i - 1);
    }
  }

  /** Entry by entry: the i-th counter is the i-th distinct name with its number of
      occurrences. */
  lemma TallyEntries(names: seq<string>)
    ensures |Tally(names)| == |FirstAppearances(names)|
    ensures forall i :: 0 <= i < |Tally(names)| ==>
      Tally(names)[i] == (FirstAppearances(names)[i], Occurrences(names, FirstAppearances(names)[i]))
  {
    TallyCounts(names);
    FirstAppearancesDistinct(names);
    forall i | 0 <= i < |Tally(names)|
      ensures Tally(names)[i] == (FirstAppearances(names)[i], Occurrences(names, FirstAppearances(names)[i]))
    {
      LookupDistinct(Tally(names), i);
    }
  }

  lemma TallyStep(names: seq<string>, i: nat)
    requires i < |names|
    ensures Tally(names[..i + 1]) == Bump(Tally(names[..i]), names[i])
  {
    var p := names[..i + 1];
    assert p[..|p| - 1] == names[..i];
    assert p[|p| - 1] == names[i];
  }

  /** The counting loop of `_refresh` for one list of records. */
  method CountByUser(userNames: seq<Option<string>>) returns (counts: Counts)
    ensures counts == Tally(BucketNames(userNames))
    ensures Total(counts) == |userNames|
    ensures forall name :: Lookup(counts, name) == Occurrences(BucketNames(userNames), name)
  {
    ghost var names := BucketNames(userNames);
    counts := [];
    var i := 0;
    while i < |userNames|
      invariant 0 <= i <= |userNames|
      invariant counts == Tally(names[..i])
    {
      var name := BucketName(userNames[i]);
      TallyStep(names, i);
      counts := Bump(counts, name);
      i := i + 1;
    }
    assert names[..i] == names;
    TallyCounts(names);
  }

  // ---------------------------------------------------------------------------------
  // The leader of a count and its table cell.

  /** `_top_entry`: ("—", 0) for no counters, otherwise the first counter (in insertion
      order) with the largest count, which is what Python's `max` returns. */
  function TopEntry(counts: Counts): (top: (string, nat))
    ensures counts == [] ==> top == (Dash, 0)
    ensures forall i :: 0 <= i < |counts| ==> counts[i].1 <= top.1
    ensures counts != [] ==> exists i :: 0 <= i < |counts| && counts[i] == top
                                && forall j :: 0 <= j < i ==> counts[j].1 < top.1
  {
    if counts == [] then (Dash, 0)
    else
      var rest := TopEntry(counts[1..]);
      if counts[0].1 >= rest.1 then counts[0]
      else
        assert counts[1..] != [];
        var i :| 0 <= i < |counts[1..]| && counts[1..][i] == rest
                 && forall j :: 0 <= j < i ==> counts[1..][j].1 < rest.1;
        assert counts[i + 1] == rest;
        rest
  }

  /** The leader of the counted records is a user with the most records. */
  lemma TopOfTally(names: seq<string>)
    requires names != []
    ensures var top := TopEntry(Tally(names));
      && top.0 in names && top.1 == Occurrences(names, top.0) && top.1 > 0
      && forall name :: Occurrences(names, name) <= top.1
  {
    var counts := Tally(names);
    TallyEntries(names);
    FirstAppearancesDistinct(names);
    assert names[|names| - 1] in FirstAppearances(names);
    var top := TopEntry(counts);
    var i :| 0 <= i < |counts| && counts[i] == top;
    OccurrencesPositive(names, top.0);
    forall name ensures Occurrences(names, name) <= top.1 {
      OccurrencesPositive(names, name);
      if name in names {
        var k :| 0 <= k < |FirstAppearances(names)| && FirstAppearances(names)[k] == name;
        assert counts[k].1 <= top.1;
      }
    }
  }

  /** `_format_top`: "—" when there is no leader, otherwise "name (count)". */
  function FormatTop(name: string, count: int): (cell: string)
    ensures cell == Dash <==> count == 0 || name == Dash
  {
    if count == 0 || name == Dash then Dash else name + " (" + IntToDecimal(count) + ")"
  }

  function LastIndexOf(s: string, c: char): (r: Option<nat>)
    ensures r.Some? ==> r.value < |s| && s[r.value] == c
  {
    if s == [] then None
    else if s[|s| - 1] == c then Some(|s| - 1)
    else LastIndexOf(s[..|s| - 1], c)
  }

  /** Reads a cell written by `FormatTop` back into its name and count. */
  function ParseTop(cell: string): Option<(string, int)> {
    if |cell| < 4 || cell[|cell| - 1] != ')' then None
    else match LastIndexOf(cell[..|cell| - 1], '(')
      case None => None
      case Some(j) =>
        if j == 0 || cell[j - 1] != ' ' then None
        else match IntLiteral(cell[j + 1..|cell| - 1])
          case None => None
          case Some(count) => Some((cell[..j - 1], count))
  }

  lemma {:induction false} LastIndexOfSkips(p: string, c: char, suffix: string)
    requires c !in suffix
    ensures LastIndexOf(p + [c] + suffix, c) == Some(|p|)
  {
    if suffix != [] {
      var s := p + [c] + suffix;
      assert s[..|s| - 1] == p + [c] + suffix[..|suffix| - 1];
      LastIndexOfSkips(p, c, suffix[..|suffix| - 1]);
    } else {
      assert p + [c] + suffix == p + [c];
    }
  }

  /** A cell "name (digits)" splits at its last "(": the name before it, the number inside. */
  lemma ParseTopSplits(name: string, d: string)
    requires d != [] && '(' !in d
    ensures IntLiteral(d).Some? ==> ParseTop(name + " (" + d + ")") == Some((name, IntLiteral(d).value))
  {
    var cell := name + " (" + d + ")";
    assert cell[..|cell| - 1] == (name + [' ']) + ['('] + d;
    LastIndexOfSkips(name + [' '], '(', d);
    var j := |name| + 1;
    assert cell[j + 1..|cell| - 1] == d;
    assert cell[..j - 1] == name;
  }

  /** A leader's cell is unambiguous: the name and the count can be read back from it. */
  lemma FormatTopRoundTrip(name: string, count: int)
    requires count != 0 && name != Dash && WithinDigitLimit(count)
    ensures ParseTop(FormatTop(name, count)) == Some((name, count))
  {
    var d := IntToDecimal(count);
    assert FormatTop(name, count) == name + " (" + d + ")";
    assert '(' !in d;
    ParseTopSplits(name, d);
    DecimalRoundTrip(count);
  }

  // ---------------------------------------------------------------------------------
  // The figures `_refresh` shows.

  datatype Summary = Summary(
    totalScans: nat, uniqueUsers: nat, totalErrors: nat, errorUsers: nat,
    topScan: (string, nat), topError: (string, nat))

  /** `_refresh` without the widgets: count scans and errors per user, then take the totals,
      the numbers of users and the leaders. */
  method Refresh(scanUsers: seq<Option<string>>, errorUsers: seq<Option<string>>)
    returns (summary: Summary)
    ensures summary.totalScans == |scanUsers| && summary.totalErrors == |errorUsers|
    ensures summary.uniqueUsers == |FirstAppearances(BucketNames(scanUsers))|
    ensures summary.errorUsers == |FirstAppearances(BucketNames(errorUsers))|
    ensures scanUsers == [] <==> summary.topScan == (Dash, 0)
    ensures scanUsers != [] ==> forall name :: Occurrences(BucketNames(scanUsers), name) <= summary.topScan.1
    ensures scanUsers != [] ==> summary.topScan.1 == Occurrences(BucketNames(scanUsers), summary.topScan.0)
    ensures errorUsers == [] <==> summary.topError == (Dash, 0)
    ensures errorUsers != [] ==> forall name :: Occurrences(BucketNames(errorUsers), name) <= summary.topError.1
    ensures errorUsers != [] ==> summary.topError.1 == Occurrences(BucketNames(errorUsers), summary.topError.0)
  {
    var scanCounts := CountByUser(scanUsers);
    var errorCounts := CountByUser(errorUsers);
    TallyEntries(BucketNames(scanUsers));
    TallyEntries(BucketNames(errorUsers));
    summary := Summary(Total(scanCounts), |scanCounts|, Total(errorCounts), |errorCounts|,
                       TopEntry(scanCounts), TopEntry(errorCounts));
    if scanUsers != [] {
      TopOfTally(BucketNames(scanUsers));
    }
    if errorUsers != [] {
      TopOfTally(BucketNames(errorUsers));
    }
  }

  // ---------------------------------------------------------------------------------
  // The selected period.

  /** A point in time: a day number and a time of day in microseconds since midnight,
      ordered as `datetime.combine(day, time)` values are. */
  datatype Moment = Moment(day: int, time: nat)

  predicate After(a: Moment, b: Moment) {
    a.day > b.day || (a.day == b.day && a.time > b.time)
  }

  /** `dtime.min` and `dtime(23, 59, 59)`, the default start and end times of day. */
  const DayStart: nat := 0
  const DayEnd: nat := 86399 * 1000000

  /** The start or end moment, with the default time when no time was picked. */
  function Combine(date: Option<int>, time: Option<nat>, default: nat): (m: Option<Moment>)
    ensures m.Some? <==> date.Some?
    ensures m.Some? ==> m.value.day == date.value && (time.None? ==> m.value.time == default)
    ensures m.Some? && time.Some? ==> m.value.time == time.value
  {
    if date.None? then None else Some(Moment(date.value, time.GetOr(default)))
  }

  /** Swapping an inverted period's dates and times puts it in order, even though a
      missing time then defaults differently. */
  lemma SwapOrders(startDate: int, startTime: Option<nat>, endDate: int, endTime: Option<nat>)
    requires After(Moment(startDate, startTime.GetOr(DayStart)), Moment(endDate, endTime.GetOr(DayEnd)))
    ensures !After(Moment(endDate, endTime.GetOr(DayStart)), Moment(startDate, startTime.GetOr(DayEnd)))
  {
  }

  class PeriodSelection {
    var startDate: Option<int>
    var startTime: Option<nat>
    var endDate: Option<int>
    var endTime: Option<nat>

    constructor (startDate: Option<int>, startTime: Option<nat>, endDate: Option<int>, endTime: Option<nat>)
      ensures this.startDate == startDate && this.startTime == startTime
      ensures this.endDate == endDate && this.endTime == endTime
    {
      this.startDate, this.startTime := startDate, startTime;
      this.endDate, this.endTime := endDate, endTime;
    }

    function Start(): (m: Option<Moment>)
      reads this
      ensures m.Some? <==> startDate.Some?
      ensures m.Some? ==> m.value.day == startDate.value && (startTime.Some? ==> m.value.time == startTime.value)
      ensures m.Some? && startTime.None? ==> m.value.time == 0
    {
      Combine(startDate, startTime, DayStart)
    }

    function End(): (m: Option<Moment>)
      reads this
      ensures m.Some? <==> endDate.Some?
      ensures m.Some? ==> m.value.day == endDate.value && (endTime.Some? ==> m.value.time == endTime.value)
      ensures m.Some? && endTime.None? ==> m.value.time == ((23 * 60 + 59) * 60 + 59) * 1000000
    {
      Combine(endDate, endTime, DayEnd)
    }

    /** `_ensure_order`: when both ends are set and the start is after the end, swap the
        dates and swap the times. Afterwards the start is never after the end. */
    method EnsureOrder()
      modifies this
      ensures Start().Some? && End().Some? ==> !After(Start().value, End().value)
      ensures old(Start()).Some? && old(End()).Some? && After(old(Start()).value, old(End()).value) ==>
        && startDate == old(endDate) && endDate == old(startDate)
        && startTime == old(endTime) && endTime == old(startTime)
      ensures !(old(Start()).Some? && old(End()).Some? && After(old(Start()).value, old(End()).value)) ==>
        && startDate == old(startDate) && endDate == old(endDate)
        && startTime == old(startTime) && endTime == old(endTime)
    {
      var start, end := Start(), End();
      if start.Some? && end.Some? && After(start.value, end.value) {
        SwapOrders(startDate.value, startTime, endDate.value, endTime);
        startDate, endDate := endDate, startDate;
        startTime, endTime := endTime, startTime;
      }
    }
  }
}

=== FILE: text.dfy ===
/** Python string behaviour the application relies on: `str.strip()`, `str.lower()` on the
    role names, `str(int)` and `int(str)`. */
module Text {
  import opened Wrappers

  /** The code points for which Python's `str.isspace()` holds; `str.strip()` removes these. */
  predicate IsSpace(c: char) {
    || ('\t' <= c <= '\r') || ('\U{1C}' <= c <= '\U{20}')
    || c == '\U{85}' || c == '\U{A0}' || c == '\U{1680}' || ('\U{2000}' <= c <= '\U{200A}')
    || c == '\U{2028}' || c == '\U{2029}' || c == '\U{202F}' || c == '\U{205F}' || c == '\U{3000}'
  }

  /** The characters `int()` skips around a literal: the ASCII `\t\n\v\f\r` and space, and
      every non-ASCII white-space character (CPython first rewrites those to a space). The
      ASCII separators U+001C to U+001F, white space for `str.isspace()`, are not skipped. */
  predicate IsIntSpace(c: char) {
    IsSpace(c) && !('\U{1C}' <= c <= '\U{1F}')
  }

  /** Where the run of `space` characters that starts at `i` ends: the first index from `i`
      on that holds another character, or `|s|`. */
  function LeadingEnd(s: string, space: char -> bool, i: nat): (a: nat)
    requires i <= |s|
    ensures i <= a <= |s|
    ensures forall k :: i <= k < a ==> space(s[k])
    ensures a == |s| || !space(s[a])
    decreases |s| - i
  {
    if i == |s| || !space(s[i]) then i else LeadingEnd(s, space, i + 1)
  }

  /** Where the run of `space` characters that ends at `j` starts, looking no further back
      than `lo`. */
  function TrailingStart(s: string, space: char -> bool, j: nat, lo: nat): (b: nat)
    requires lo <= j <= |s|
    ensures lo <= b <= j
    ensures forall k :: b <= k < j ==> space(s[k])
    ensures b == lo || !space(s[b - 1])
  {
    if j == lo || !space(s[j - 1]) then j else TrailingStart(s, space, j - 1, lo)
  }

  /** `s` without its leading and trailing `space` characters. */
  function Trim(s: string, space: char -> bool): (r: string)
    ensures |r| <= |s|
  {
    var a := LeadingEnd(s, space, 0);
    s[a..TrailingStart(s, space, |s|, a)]
  }

  /** `s.strip()`. */
  function Strip(s: string): (r: string)
    ensures |r| <= |s|
  {
    Trim(s, IsSpace)
  }

  /** The white space `int()` ignores around its literal, removed. */
  function IntStrip(s: string): (r: string)
    ensures |r| <= |s|
  {
    Trim(s, IsIntSpace)
  }

  /** Trimming removes exactly the surrounding `space` characters: the result is a slice of
      `s` with only `space` characters outside it and none at either of its ends. */
  lemma TrimIsSlice(s: string, space: char -> bool)
    ensures var a := LeadingEnd(s, space, 0);
      && a + |Trim(s, space)| <= |s| && Trim(s, space) == s[a..a + |Trim(s, space)|]
      && (forall k :: 0 <= k < a ==> space(s[k]))
      && (forall k :: a + |Trim(s, space)| <= k < |s| ==> space(s[k]))
      && (Trim(s, space) == [] || (!space(Trim(s, space)[0]) && !space(Trim(s, space)[|Trim(s, space)| - 1])))
  {
    var a := LeadingEnd(s, space, 0);
    var b := TrailingStart(s, space, |s|, a);
    var r := s[a..b];
    assert Trim(s, space) == r;
    if r != [] {
      assert r[0] == s[a] && r[|r| - 1] == s[b - 1];
    }
  }

  /** `strip()` removes exactly the surrounding white space. */
  lemma StripIsTrimmedSlice(s: string)
    ensures LeadingEnd(s, IsSpace, 0) + |Strip(s)| <= |s|
    ensures Strip(s) == s[LeadingEnd(s, IsSpace, 0)..LeadingEnd(s, IsSpace, 0) + |Strip(s)|]
    ensures forall k :: 0 <= k < LeadingEnd(s, IsSpace, 0) ==> IsSpace(s[k])
    ensures forall k :: LeadingEnd(s, IsSpace, 0) + |Strip(s)| <= k < |s| ==> IsSpace(s[k])
    ensures Strip(s) == [] || (!IsSpace(Strip(s)[0]) && !IsSpace(Strip(s)[|Strip(s)| - 1]))
  {
    TrimIsSlice(s, IsSpace);
  }

  /** Stripping twice is stripping once. */
  lemma StripIdempotent(s: string)
    ensures Strip(Strip(s)) == Strip(s)
  {
    StripIsTrimmedSlice(s);
    StripKeeps(Strip(s));
  }

  /** A string that neither starts nor ends with a `space` character is its own trim. */
  lemma TrimKeeps(s: string, space: char -> bool)
    requires s == [] || (!space(s[0]) && !space(s[|s| - 1]))
    ensures Trim(s, space) == s
  {
    assert LeadingEnd(s, space, 0) == 0;
    assert TrailingStart(s, space, |s|, 0) == |s|;
    assert s[0..|s|] == s;
  }

  /** A string without white space at either end is its own strip. */
  lemma StripKeeps(s: string)
    requires s == [] || (!IsSpace(s[0]) && !IsSpace(s[|s| - 1]))
    ensures Strip(s) == s
  {
    TrimKeeps(s, IsSpace);
  }

  /** One `space` character on each side of a string that neither starts nor ends with one
      is trimmed away, and nothing else is. */
  lemma TrimAround(d: string, before: char, after: char, space: char -> bool)
    requires space(before) && space(after)
    requires d != [] && !space(d[0]) && !space(d[|d| - 1])
    ensures Trim([before] + d + [after], space) == d
  {
    var s := [before] + d + [after];
    assert s[1] == d[0];
    assert LeadingEnd(s, space, 1) == 1;
    assert LeadingEnd(s, space, 0) == 1;
    assert s[|s| - 2] == d[|d| - 1];
    assert TrailingStart(s, space, |s| - 1, 1) == |s| - 1;
    assert TrailingStart(s, space, |s|, 1) == |s| - 1;
    assert s[1..|s| - 1] == d;
  }

  /** `str.lower()` restricted to ASCII letters. The only callers compare the result with
      the ASCII words "admin", "operator" and "viewer"; no non-ASCII character lowers to one
      of their letters, so the comparison is the same as with full Unicode lowering. */
  function LowerChar(c: char): char {
    if 'A' <= c <= 'Z' then (c as int + 32) as char else c
  }

  function Lower(s: string): (r: string)
    ensures |r| == |s|
  {
    seq(|s|, i requires 0 <= i < |s| => LowerChar(s[i]))
  }

  predicate IsDigit(c: char) {
    '0' <= c <= '9'
  }

  function DigitChar(d: nat): char
    requires d < 10
  {
    ('0' as int + d) as char
  }

  function DigitValue(c: char): nat
    requires IsDigit(c)
  {
    c as int - '0' as int
  }

  predicate AllDigits(s: string) {
    forall k :: 0 <= k < |s| ==> IsDigit(s[k])
  }

  /** `str(n)` for a non-negative int: its decimal digits without leading zeros. */
  function NatToDecimal(n: nat): (r: string)
    ensures r != [] && AllDigits(r)
    ensures r[0] == '0' ==> n == 0 && r == "0"
  {
    if n < 10 then [DigitChar(n)] else NatToDecimal(n / 10) + [DigitChar(n % 10)]
  }

  /** `str(i)`: a `-` for a negative value, then the decimal digits. Python 3.11 and later
      refuse (`ValueError`) to render more than `MaxStrDigits` digits; this renders any int. */
  function IntToDecimal(i: int): (r: string)
    ensures r != []
    ensures i < 0 <==> r[0] == '-'
    ensures forall k :: 0 < k < |r| ==> IsDigit(r[k])
  {
    if i < 0 then "-" + NatToDecimal(-i) else NatToDecimal(i)
  }

  /** The number a string of decimal digits denotes (leading zeros allowed). */
  function DigitsValue(s: string): nat
    requires AllDigits(s)
  {
    if s == [] then 0 else DigitsValue(s[..|s| - 1]) * 10 + DigitValue(s[|s| - 1])
  }

  lemma {:induction false} DigitsValueOfDecimal(n: nat)
    ensures DigitsValue(NatToDecimal(n)) == n
  {
    if n >= 10 {
      var p := NatToDecimal(n / 10);
      var r := p + [DigitChar(n % 10)];
      assert r[..|r| - 1] == p;
      DigitsValueOfDecimal(n / 10);
    }
  }

  /** The digits of a Python integer literal body: digits, with single underscores allowed
      between two digits (`1_000`). */
  predicate IsDigitGroups(b: string) {
    && b != [] && IsDigit(b[0]) && IsDigit(b[|b| - 1])
    && (forall k :: 0 <= k < |b| ==> IsDigit(b[k]) || b[k] == '_')
    && (forall k :: 0 <= k < |b| - 1 ==> !(b[k] == '_' && b[k + 1] == '_'))
  }

  function RemoveUnderscores(b: string): (r: string)
    requires forall k :: 0 <= k < |b| ==> IsDigit(b[k]) || b[k] == '_'
    ensures AllDigits(r) && |r| <= |b|
  {
    if b == [] then []
    else if b[0] == '_' then RemoveUnderscores(b[1..])
    else [b[0]] + RemoveUnderscores(b[1..])
  }

  /** Dropping the separators works piece by piece: a `_` between two parts contributes
      nothing, and each part keeps its own digits in order. */
  lemma {:induction false} RemoveUnderscoresSplit(x: string, y: string)
    requires forall k :: 0 <= k < |x| ==> IsDigit(x[k]) || x[k] == '_'
    requires forall k :: 0 <= k < |y| ==> IsDigit(y[k]) || y[k] == '_'
    ensures RemoveUnderscores(x + "_" + y) == RemoveUnderscores(x) + RemoveUnderscores(y)
  {
    if x == [] {
      assert x + "_" + y == "_" + y;
      assert ("_" + y)[1..] == y;
    } else {
      RemoveUnderscoresSplit(x[1..], y);
      assert (x + "_" + y)[1..] == x[1..] + "_" + y;
      assert (x + "_" + y)[0] == x[0];
    }
  }

  /** `int("1_000") == 1000`: the digits on both sides of a separator all count. */
  lemma PyIntReadsSeparatedGroups()
    ensures PyInt("1_000") == Some(1000)
  {
    var t := "1_000";
    TrimKeeps(t, IsIntSpace);
    assert IsDigitGroups(t);
    SeparatedThousand();
  }

  lemma SeparatedThousand()
    ensures RemoveUnderscores("1_000") == "1000"
    ensures DigitsValue("1000") == 1000
  {
    RemoveUnderscoresSplit("1", "000");
    RemoveUnderscoresOfDigits("1");
    RemoveUnderscoresOfDigits("000");
    ThousandValue();
  }

  lemma ThousandValue()
    ensures DigitsValue("1000") == 1000
  {
    assert "1000"[..3] == "100" && "100"[..2] == "10" && "10"[..1] == "1";
  }

  /** `sys.get_int_max_str_digits()` at its default: `int()` of a decimal string with more
      digits than this raises `ValueError` (CPython 3.11 and later). */
  const MaxStrDigits: nat := 4300

  function Abs(i: int): nat {
    if i < 0 then -i else i
  }

  /** `str(i)` has at most `MaxStrDigits` digits, so `int()` accepts it. */
  predicate WithinDigitLimit(i: int) {
    |NatToDecimal(Abs(i))| <= MaxStrDigits
  }

  /** `int(s)` on a string, in base 10: surrounding `IsIntSpace` characters are ignored,
      then one optional sign and digit groups of at most `MaxStrDigits` digits in all.
      `None` stands for the `ValueError` it raises otherwise. Non-ASCII decimal digits,
      which Python also accepts, are not modelled. */
  function PyInt(s: string): (r: Option<int>)
    ensures r.Some? ==> IntStrip(s) != []
  {
    IntLiteral(IntStrip(s))
  }

  /** An integer literal without surrounding white space. */
  function IntLiteral(t: string): (r: Option<int>)
    ensures r.Some? ==> t != [] && IsDigit(t[|t| - 1])
  {
    var negative := t != [] && t[0] == '-';
    var body := if t != [] && (t[0] == '-' || t[0] == '+') then t[1..] else t;
    if IsDigitGroups(body) then
      var digits := RemoveUnderscores(body);
      if |digits| > MaxStrDigits then None
      else
        var v: int := DigitsValue(digits);
        Some(if negative then -v else v)
    else None
  }

  /** Reading back what `str(i)` wrote gives `i`, within the digit limit. */
  lemma DecimalRoundTrip(i: int)
    requires WithinDigitLimit(i)
    ensures IntLiteral(IntToDecimal(i)) == Some(i)
  {
    var d := IntToDecimal(i);
    var body := NatToDecimal(Abs(i));
    DigitsAreGroups(body);
    RemoveUnderscoresOfDigits(body);
    DigitsValueOfDecimal(Abs(i));
    if i < 0 {
      assert d[1..] == body;
    } else {
      assert IsDigit(d[0]);
    }
  }

  /** `int(str(i)) == i`, within the digit limit. */
  lemma PyIntRoundTrip(i: int)
    requires WithinDigitLimit(i)
    ensures PyInt(IntToDecimal(i)) == Some(i)
  {
    var d := IntToDecimal(i);
    var body := NatToDecimal(Abs(i));
    assert d == if i < 0 then "-" + body else body;
    assert d[|d| - 1] == body[|body| - 1];
    TrimKeeps(d, IsIntSpace);
    DecimalRoundTrip(i);
  }

  /** A run of more than `MaxStrDigits` digits is refused, whatever its value. */
  lemma PyIntRefusesLongDigitRuns(t: string)
    requires AllDigits(t) && |t| > MaxStrDigits
    ensures PyInt(t) == None
  {
    assert IsDigit(t[0]) && IsDigit(t[|t| - 1]);
    TrimKeeps(t, IsIntSpace);
    assert IntStrip(t) == t;
    DigitsAreGroups(t);
    RemoveUnderscoresOfDigits(t);
    assert IntLiteral(t) == None;
  }

  /** `int(" 42\n") == 42`: ordinary white space around the literal is ignored. */
  lemma PyIntIgnoresSpaces(i: int)
    requires WithinDigitLimit(i)
    ensures PyInt(" " + IntToDecimal(i) + "\n") == Some(i)
  {
    var d := IntToDecimal(i);
    var body := NatToDecimal(Abs(i));
    assert d == if i < 0 then "-" + body else body;
    assert d[|d| - 1] == body[|body| - 1];
    TrimAround(d, ' ', '\n', IsIntSpace);
    DecimalRoundTrip(i);
  }

  /** A string that starts with one of the separators U+001C to U+001F is refused: `int()`
      does not skip them, although `str.strip()` would. */
  lemma PyIntRefusesSeparators(s: string)
    requires s != [] && '\U{1C}' <= s[0] <= '\U{1F}'
    ensures PyInt(s) == None
  {
    assert LeadingEnd(s, IsIntSpace, 0) == 0;
    var r := IntStrip(s);
    if r != [] {
      assert r[0] == s[0];
      assert !IsDigitGroups(r);
    }
  }

  lemma DigitsAreGroups(b: string)
    requires b != [] && AllDigits(b)
    ensures IsDigitGroups(b)
  {
  }

  lemma {:induction false} RemoveUnderscoresOfDigits(b: string)
    requires AllDigits(b)
    ensures RemoveUnderscores(b) == b
  {
    if b != [] {
      RemoveUnderscoresOfDigits(b[1..]);
    }
  }
}

=== FILE: user_api.dfy ===
/** The request helpers of `UserApi`: URL and header construction, the choice of an error
    message from an error response, and the payload of `update_user`. The HTTP requests
    themselves are not part of this model. */
module UserApi {
  import opened Wrappers
  import opened Json
  import opened Text
  import opened Roles

  const ApiBase: string := "https://tracking-api-b4jb.onrender.com"

  /** `ApiException(message, status_code)`. */
  datatype ApiError = ApiError(message: string, statusCode: int)

  predicate StartsWithSlash(path: string) {
    |path| > 0 && path[0] == '/'
  }

  /** `UserApi._url`: the API base followed by the path, with a leading `/` added only
      when the path lacks one. */
  function Url(path: string): (r: string)
    ensures |r| > |ApiBase| && r[..|ApiBase|] == ApiBase && r[|ApiBase|] == '/'
    ensures StartsWithSlash(path) <==> r[|ApiBase|..] == path
    ensures !StartsWithSlash(path) ==> r[|ApiBase| + 1..] == path
  {
    var p := if StartsWithSlash(path) then path else "/" + path;
    assert (ApiBase + p)[|ApiBase|..] == p;
    ApiBase + p
  }

  /** Normalising the path part of a URL again changes nothing. */
  lemma UrlIdempotent(path: string)
    ensures Url(Url(path)[|ApiBase|..]) == Url(path)
  {
    var u := Url(path);
    assert u == ApiBase + u[|ApiBase|..];
  }

  /** `UserApi._headers`: JSON accept and content type always; a bearer authorization
      only for a token that is present and non-empty. */
  function Headers(token: Option<string>): (h: map<string, string>)
    ensures "Accept" in h && h["Accept"] == "application/json"
    ensures "Content-Type" in h && h["Content-Type"] == "application/json"
    ensures "Authorization" in h <==> token.Some? && token.value != ""
    ensures "Authorization" in h ==> h["Authorization"] == "Bearer " + token.value
    ensures h.Keys <= {"Accept", "Content-Type", "Authorization"}
  {
    var base := map["Accept" := "application/json", "Content-Type" := "application/json"];
    if token.Some? && token.value != "" then base["Authorization" := "Bearer " + token.value]
    else base
  }

  /** How a server reads the token back out of an `Authorization: Bearer <token>` header. */
  function BearerToken(h: map<string, string>): Option<string> {
    if "Authorization" in h && |h["Authorization"]| > 7 && h["Authorization"][..7] == "Bearer "
    then Some(h["Authorization"][7..])
    else None
  }

  /** The headers carry exactly the token they were built from, when there is one. */
  lemma HeadersCarryToken(token: Option<string>)
    ensures BearerToken(Headers(token)) == if token.Some? && token.value != "" then token else None
  {
    if token.Some? && token.value != "" {
      var a := "Bearer " + token.value;
      assert a[..7] == "Bearer " && a[7..] == token.value;
    }
  }

  /** The generic message used when a response names no error of its own. */
  function FallbackMessage(status: int): (m: string)
    ensures |m| > 18 && m[|m| - 1] == ')'
  {
    "Помилка сервера (" + IntToDecimal(status) + ")"
  }

  /** The `detail or message` entry of an error payload (Python's `or`: a falsy `detail`
      gives way to `message`). */
  function DetailOrMessage(fields: map<string, Json>): (v: Json)
    ensures v == Get(fields, "detail") || v == Get(fields, "message")
  {
    var detail := Get(fields, "detail");
    if Truthy(detail) then detail else Get(fields, "message")
  }

  /** `UserApi._extract_message`: the payload's own non-empty `detail` (or, failing that,
      `message`) string when the payload is an object, otherwise the generic message with
      the status code. */
  function ExtractMessage(payload: Json, status: int): (msg: string)
    ensures msg != ""
    ensures payload.JObject? && DetailOrMessage(payload.fields).JStr?
            && DetailOrMessage(payload.fields).s != ""
            ==> msg == DetailOrMessage(payload.fields).s
    ensures !(payload.JObject? && DetailOrMessage(payload.fields).JStr?
              && DetailOrMessage(payload.fields).s != "")
            ==> msg == FallbackMessage(status)
  {
    if payload.JObject? then
      var detail := DetailOrMessage(payload.fields);
      if detail.JStr? && detail.s != "" then detail.s else FallbackMessage(status)
    else FallbackMessage(status)
  }

  /** A non-empty `detail` string wins over any `message`. */
  lemma DetailWins(fields: map<string, Json>, detail: string, status: int)
    requires detail != ""
    ensures ExtractMessage(JObject(fields["detail" := JStr(detail)]), status) == detail
  {
  }

  /** A `detail` that is present but falsy (null, "", 0, [] ...) gives way to `message`. */
  lemma FalsyDetailYieldsToMessage(fields: map<string, Json>, message: string, status: int)
    requires "detail" in fields && !Truthy(fields["detail"])
    requires message != ""
    ensures ExtractMessage(JObject(fields["message" := JStr(message)]), status) == message
  {
    var f := fields["message" := JStr(message)];
    assert Get(f, "detail") == fields["detail"];
  }

  /** The generic message carries the status code, which can be read back from it. */
  lemma FallbackCarriesStatus(status: int)
    requires WithinDigitLimit(status)
    ensures var m := FallbackMessage(status);
      |m| > 18 && m[|m| - 1] == ')' && IntLiteral(m[17..|m| - 1]) == Some(status)
  {
    var d := IntToDecimal(status);
    var m := FallbackMessage(status);
    assert |"Помилка сервера ("| == 17;
    assert m[17..|m| - 1] == d;
    DecimalRoundTrip(status);
  }

  /** The body of the PATCH request of `update_user`: the role and the active flag that
      were given, or the `ApiException("Немає даних для оновлення", 400)` raised when
      neither was. */
  function UpdatePayload(role: Option<UserRole>, isActive: Option<bool>): (r: Result<map<string, Json>, ApiError>)
    ensures r.Failure? <==> role.None? && isActive.None?
    ensures r.Failure? ==> r.error == ApiError("Немає даних для оновлення", 400)
    ensures r.Success? ==> r.value.Keys <= {"role", "is_active"}
    ensures r.Success? ==> ("role" in r.value <==> role.Some?)
    ensures r.Success? ==> ("is_active" in r.value <==> isActive.Some?)
  {
    var withRole: map<string, Json> := if role.Some? then map["role" := JStr(Value(role.value))] else map[];
    var payload := if isActive.Some? then withRole["is_active" := JBool(isActive.value)] else withRole;
    assert role.Some? ==> "role" in payload;
    assert isActive.Some? ==> "is_active" in payload;
    if payload == map[] then Failure(ApiError("Немає даних для оновлення", 400)) else Success(payload)
  }

  /** How the server reads a PATCH body: the role through `from_value`, the flag as given. */
  function DecodeUpdate(payload: map<string, Json>): (Option<UserRole>, Option<bool>) {
    var role := if "role" in payload && payload["role"].JStr?
                then Some(FromValue(Some(payload["role"].s), None)) else None;
    var active := if "is_active" in payload && payload["is_active"].JBool?
                  then Some(payload["is_active"].b) else None;
    (role, active)
  }

  /** A payload that was built reads back as exactly the requested change. */
  lemma UpdatePayloadRoundTrip(role: Option<UserRole>, isActive: Option<bool>)
    requires role.Some? || isActive.Some?
    ensures UpdatePayload(role, isActive).Success?
    ensures DecodeUpdate(UpdatePayload(role, isActive).value) == (role, isActive)
  {
    if role.Some? {
      ValueRoundTrip(role.value, None);
    }
  }
}

=== FILE: wrappers.dfy ===
/** Option and Result values standing in for Python's `None` and for raised exceptions. */
module Wrappers {
  datatype Option<+T> = None | Some(value: T) {
    function GetOr(default: T): T {
      match this
      case Some(v) => v
      case None => default
    }
  }

  datatype Result<+R, +E> = Success(value: R) | Failure(error: E)
}
